=== FILE: README.md ===
# LevelDB Viewer core, modelled in Dafny

This project models the core of LevelDB Viewer, a desktop tool for inspecting an
on-disk LevelDB store. The viewer opens a store and reads every key/value
record. It renders each key and value as text, or as a `[Binary: N bytes]`
placeholder, together with an upper-case hex rendering. A search box narrows
the list. When the engine reports corruption, the viewer offers "repair and
reopen".

Modules, following the source files and the .NET library calls they make:

- `Encoding` (`encoding.dfy`): `Encoding.UTF8.GetString`. It is a total UTF-8
  decoder that replaces each maximal ill-formed subpart with U+FFFD, as
  section 3.9 of the Unicode standard recommends.
- `Text` (`text.dfy`): the `char` and `string` operations the viewer calls.
  These are `char.IsControl`, `char.IsWhiteSpace`,
  `string.IsNullOrWhiteSpace`, `ToLower`, ordinal `Contains`, `Contains`
  with `StringComparison.OrdinalIgnoreCase`, `Replace` (the string overload,
  applied to one-character strings) and decimal rendering of a count. The
  module also defines `Split` and `ParseNat`. The viewer does not call
  them; they serve only to state that the hex column and the placeholder's
  count read back (`HexRoundTrip`, `ParseNatToString`).
- `BitConverter` (`bitconverter.dfy`): `BitConverter.ToString(byte[])`.
- `Models` (`models.dfy`): the `LevelDbEntry` record.
- `LevelDbService` (`leveldb_service.dfy`): display text (`IsPrintable`,
  `TryDecodeUtf8`) and the hex column. It also holds the `LevelDbService`
  class, which owns the optional store handle and builds one entry per
  iterated record.
- `MainWindowViewModel` (`main_window_view_model.dfy`): corruption
  classification, the search filter, and the `MainWindowViewModel` class.
  The class's commands update its observable fields. Its invariant `Valid()`
  holds after every command:
  - `TotalEntries` equals the number of loaded entries;
  - `FilteredEntries` is the filter of the loaded entries by `SearchText`;
  - corruption is flagged only while the store is shown as closed;
  - while the store is shown as open, the service holds a handle whose
    records are exactly the loaded entries.

The engine's answers are parameters of the commands. When asked to open a
path, the engine gives an exception message or the records its iterator walks
from first key to last. When asked to repair, it gives success or an exception
message. The folder the picker returns is also a parameter.

## Model

| member | source | states |
|---|---|---|
| `Encoding.Utf8GetString` | LevelDBViewer/Services/LevelDbService.cs:56 | Decoding never fails. It yields at most one character per byte, and empty text exactly for empty input. |
| `Encoding.AsciiDecodesVerbatim` | LevelDBViewer/Services/LevelDbService.cs:56 | Bytes below 0x80 decode one-for-one to the characters with the same code. |
| `Encoding.AsciiByteSurvives` | LevelDBViewer/Services/LevelDbService.cs:56 | A byte below 0x80 always appears as its own character in the decoded text. It is never absorbed into a replaced subpart. |
| `Text.IsControl` | LevelDBViewer/Services/LevelDbService.cs:73 | Definition of `char.IsControl`: Unicode category Cc, U+0000-U+001F and U+007F-U+009F. |
| `Text.IsWhiteSpace` | LevelDBViewer/ViewModels/MainWindowViewModel.cs:175 | Definition of `char.IsWhiteSpace`, which `IsNullOrWhiteSpace` applies to each character: the Unicode White_Space characters (U+0009-U+000D, space, U+0085, U+00A0, U+1680, U+2000-U+200A, U+2028, U+2029, U+202F, U+205F, U+3000). |
| `Text.IsNullOrWhiteSpace` | LevelDBViewer/ViewModels/MainWindowViewModel.cs:175 | Definition of `string.IsNullOrWhiteSpace` for a non-null string: every character is Unicode White_Space, so the empty string counts as blank. |
| `Text.ToLower` | LevelDBViewer/ViewModels/MainWindowViewModel.cs:184-189 | Definition of `ToLower`: same length, and each character is lower-cased (ASCII `A-Z` to `a-z`, everything else kept). |
| `Text.Contains` | LevelDBViewer/ViewModels/MainWindowViewModel.cs:186-189 | Definition of ordinal `string.Contains`: tries the pattern as a prefix at each position from the left. |
| `Text.ContainsMeaning` | LevelDBViewer/ViewModels/MainWindowViewModel.cs:186-189 | The left-to-right ordinal `Contains` finds the pattern exactly when the pattern occurs at some position of the text. |
| `Text.ContainsIgnoreCase` | LevelDBViewer/ViewModels/MainWindowViewModel.cs:201-202 | Definition of `Contains(…, StringComparison.OrdinalIgnoreCase)`: ordinal `Contains` of the lower-cased pattern in the lower-cased text. |
| `Text.ContainsIgnoreCaseOfLower` | LevelDBViewer/ViewModels/MainWindowViewModel.cs:201-202 | A case-insensitive search gives the same answer on a text and on its lower-cased form. |
| `Text.Replace` | LevelDBViewer/Services/LevelDbService.cs:42-43 | Definition of `string.Replace(string, string)` for one-character strings, as in `Replace("-", " ")`: each occurrence of the one character becomes the other. |
| `Text.ReplaceMeaning` | LevelDBViewer/Services/LevelDbService.cs:42-43 | Replacing one character by a different one keeps the length, changes exactly the occurrences of the first, and leaves none of them behind. |
| `Text.NatToString` | LevelDBViewer/Services/LevelDbService.cs:61 | How `{bytes.Length}` is written: at least one character, all of them decimal digits. |
| `Text.ParseNatToString` | LevelDBViewer/Services/LevelDbService.cs:61 | The decimal count written into the placeholder reads back as the same number. |
| `Models.LevelDbEntry` | LevelDBViewer/Models/LevelDbEntry.cs:3-9 | The entry record: key and value display texts, key and value hex renderings. The C# class has setters, but the viewer only sets them in the object initializer, so the entry is a value here. |
| `LevelDbService.IsPrintable` | LevelDBViewer/Services/LevelDbService.cs:69-77 | Definition of the foreach scan: false at the first control character other than LF, CR or tab, true at the end. |
| `LevelDbService.IsPrintableMeaning` | LevelDBViewer/Services/LevelDbService.cs:69-77 | The early-return scan answers true iff no character is a control character (U+0000-U+001F, U+007F-U+009F) other than LF, CR or tab. So the empty string is printable. |
| `LevelDbService.BinaryPlaceholder` | LevelDBViewer/Services/LevelDbService.cs:61 | `"[Binary: N bytes]"` is itself printable ASCII, 16 characters plus the digits of N. |
| `LevelDbService.BinaryPlaceholderDeterminesLength` | LevelDBViewer/Services/LevelDbService.cs:61-65 | Equal placeholders come from equal byte lengths: the placeholder depends on the length alone and determines it. |
| `LevelDbService.TryDecodeUtf8` | LevelDBViewer/Services/LevelDbService.cs:52-67 | The result is always printable. Printable decoded text is returned unchanged. Decoded text with a disallowed control character gives the placeholder for the byte length. The result is empty iff the bytes are. |
| `LevelDbService.PrintableAsciiShownVerbatim` | LevelDBViewer/Services/LevelDbService.cs:56-59 | Printable ASCII bytes (plus tab, LF, CR) are shown as exactly those characters. |
| `LevelDbService.AsciiControlByteShowsPlaceholder` | LevelDBViewer/Services/LevelDbService.cs:56-61 | One ASCII control byte other than tab, LF or CR anywhere in the input makes the whole value show as the placeholder. |
| `LevelDbService.C1ControlShowsPlaceholder` | LevelDBViewer/Services/LevelDbService.cs:69-77 | A C1 control (U+0085, bytes C2 85) also gives the placeholder. |
| `LevelDbService.InvalidUtf8ShownAsReplacementCharacters` | LevelDBViewer/Services/LevelDbService.cs:56-59 | The ill-formed bytes FF FE are shown as two U+FFFD, not as the placeholder. |
| `LevelDbService.PlaceholderTextIsAmbiguous` | LevelDBViewer/Services/LevelDbService.cs:56-61 | Bytes spelling the placeholder for their own length (the 18 bytes of "[Binary: 18 bytes]") are printable text. They display exactly like 18 bytes of binary data. |
| `BitConverter.ToString` | LevelDBViewer/Services/LevelDbService.cs:42-43 | Definition of `BitConverter.ToString(byte[])`: two upper-case hex digits per byte, pairs joined by `-`, empty for no bytes. |
| `LevelDbService.Hex` | LevelDBViewer/Services/LevelDbService.cs:42-43 | Definition of the hex column: `BitConverter.ToString` with every `-` replaced by a space. |
| `LevelDbService.HexUnfold` | LevelDBViewer/Services/LevelDbService.cs:42-43 | After the `-` to space replacement, the hex of several bytes is the first pair, one space, then the hex of the rest. |
| `LevelDbService.HexLength` | LevelDBViewer/Services/LevelDbService.cs:42-43 | The hex column is empty for no bytes and 3n-1 characters long for n bytes. |
| `LevelDbService.HexPairAt` | LevelDBViewer/Services/LevelDbService.cs:42-43 | Byte i's two upper-case hex digits stand at positions 3i and 3i+1. |
| `LevelDbService.HexSpaceAt` | LevelDBViewer/Services/LevelDbService.cs:42-43 | Consecutive pairs are separated by a single space at position 3i+2. |
| `LevelDbService.HexLayout` | LevelDBViewer/Services/LevelDbService.cs:42-43 | Length, pair positions and separators of the hex column, for all positions at once. |
| `LevelDbService.HexAlphabet` | LevelDBViewer/Services/LevelDbService.cs:42-43 | The hex column holds only `0-9`, `A-F` and spaces. |
| `LevelDbService.ParseByteToHex` | LevelDBViewer/Services/LevelDbService.cs:42-43 | Parsing one byte's hex pair gives the byte back. |
| `LevelDbService.HexRoundTrip` | LevelDBViewer/Services/LevelDbService.cs:42-43 | For non-empty input, splitting the hex column on spaces and parsing each pair gives back the original bytes. |
| `LevelDbService.ToEntry` | LevelDBViewer/Services/LevelDbService.cs:38-44 | Definition of the entry built for one record: `TryDecodeUtf8` of key and value, and the hex of key and value. |
| `LevelDbService.EntriesOf` | LevelDBViewer/Services/LevelDbService.cs:33-47 | One entry per record (the result has the records' length), entry i being `ToEntry` of record i. |
| `LevelDbService.ExampleTextEntry` | LevelDBViewer/Services/LevelDbService.cs:38-44 | The record ("a", "1") becomes the entry with texts "a" and "1" and hex "61" and "31". |
| `LevelDbService.ExampleInvalidUtf8Entry` | LevelDBViewer/Services/LevelDbService.cs:38-44 | The record ("b", FF FE) becomes the entry with key "b", a value of two U+FFFD, and hex "62" and "FF FE". |
| `LevelDbService.ExampleEntries` | LevelDBViewer/Services/LevelDbService.cs:24-50 | Records ("a","1") and ("b", FF FE) load as exactly those two entries, in order. |
| `LevelDbService.LevelDbService.constructor` | LevelDBViewer/Services/LevelDbService.cs:11-14 | A new service holds no handle and is not disposed. |
| `LevelDbService.LevelDbService.IsOpen` | LevelDBViewer/Services/LevelDbService.cs:14 | Definition of `IsOpen`: a handle is held. |
| `LevelDbService.LevelDbService.OpenDatabase` | LevelDBViewer/Services/LevelDbService.cs:16-22 | Any handle is closed first. On success the service holds a handle on the path's records. On an exception it holds none (`IsOpen` is false) and reports the message. |
| `LevelDbService.LevelDbService.GetAllEntries` | LevelDBViewer/Services/LevelDbService.cs:24-50 | No entries when nothing is open. Otherwise the entries are `EntriesOf` the handle's records: one entry per iterated record, in iterator order. Entry i holds the display texts and hex renderings of record i's key and value. |
| `LevelDbService.LevelDbService.Close` | LevelDBViewer/Services/LevelDbService.cs:79-83 | Always leaves no handle, so `IsOpen` is false. Closing twice is the same as closing once. |
| `LevelDbService.LevelDbService.Dispose` | LevelDBViewer/Services/LevelDbService.cs:85-92 | Sets the disposed flag. The first call closes the handle; later calls change nothing. |
| `MainWindowViewModel.IsCorruptionError` | LevelDBViewer/ViewModels/MainWindowViewModel.cs:199-203 | Definition: the message contains "Corruption" or "corrupted", both sides lower-cased. |
| `MainWindowViewModel.IsCorruptionErrorMeaning` | LevelDBViewer/ViewModels/MainWindowViewModel.cs:199-203 | A message is a corruption error exactly when its lower-cased text contains "corruption" or "corrupted". |
| `MainWindowViewModel.IsCorruptionErrorIgnoresCase` | LevelDBViewer/ViewModels/MainWindowViewModel.cs:199-203 | The classification is the same for a message and for its lower-cased form. |
| `MainWindowViewModel.WordRecognised` | LevelDBViewer/ViewModels/MainWindowViewModel.cs:199-203 | A message holding "corruption" or "corrupted" at any index, in any letter case, is a corruption error. |
| `MainWindowViewModel.CorruptionMessageRecognised` | LevelDBViewer/ViewModels/MainWindowViewModel.cs:199-203 | LevelDB's "Corruption: bad block contents" is a corruption error. |
| `MainWindowViewModel.UpperCaseCorruptedRecognised` | LevelDBViewer/ViewModels/MainWindowViewModel.cs:199-203 | "the file is CORRUPTED" is a corruption error: the match ignores case. |
| `MainWindowViewModel.WithoutIOrENotRecognised` | LevelDBViewer/ViewModels/MainWindowViewModel.cs:199-203 | A message with no 'i' and no 'e' in either case is never a corruption error. Both words need one of these letters after "corrupt". |
| `MainWindowViewModel.CorruptAloneNotRecognised` | LevelDBViewer/ViewModels/MainWindowViewModel.cs:199-203 | "corrupt block" is not a corruption error: the word "corrupt" alone does not match. |
| `MainWindowViewModel.Matches` | LevelDBViewer/ViewModels/MainWindowViewModel.cs:185-190 | Definition of the `Where` lambda: one of key, value, key hex or value hex, lower-cased, contains the lower-cased search text. |
| `MainWindowViewModel.Where` | LevelDBViewer/ViewModels/MainWindowViewModel.cs:185-190 | Definition of `Enumerable.Where`: the entries that satisfy `Matches`, in their original order. |
| `MainWindowViewModel.Filter` | LevelDBViewer/ViewModels/MainWindowViewModel.cs:171-197 | Definition of what `FilterEntries` puts in `FilteredEntries`: all entries for a blank search, otherwise `Where` with the lower-cased search text. |
| `MainWindowViewModel.WhereAppend` | LevelDBViewer/ViewModels/MainWindowViewModel.cs:185-195 | Filtering a list with one more entry at the end gives the old result plus that entry if it matches. The foreach loop relies on this. |
| `MainWindowViewModel.WhereSound` | LevelDBViewer/ViewModels/MainWindowViewModel.cs:185-190 | Every kept entry has a column whose lower-cased text contains the lower-cased search text. |
| `MainWindowViewModel.WhereComplete` | LevelDBViewer/ViewModels/MainWindowViewModel.cs:185-190 | Every matching entry is kept. |
| `MainWindowViewModel.WhereMultiplicity` | LevelDBViewer/ViewModels/MainWindowViewModel.cs:185-190 | Each matching entry is kept as many times as it occurs; a non-matching one not at all. |
| `MainWindowViewModel.WhereIsSubsequence` | LevelDBViewer/ViewModels/MainWindowViewModel.cs:185-195 | The kept entries are a subsequence of the loaded ones, in the original order. |
| `MainWindowViewModel.WhereIdempotent` | LevelDBViewer/ViewModels/MainWindowViewModel.cs:185-195 | Filtering the kept entries again with the same text keeps all of them. |
| `MainWindowViewModel.FilterBlankShowsAll` | LevelDBViewer/ViewModels/MainWindowViewModel.cs:175-181 | An empty or all-white-space search shows every loaded entry, in order. |
| `MainWindowViewModel.FilterSoundAndComplete` | LevelDBViewer/ViewModels/MainWindowViewModel.cs:184-195 | A non-blank search shows only matching entries and every matching entry, each as many times as it is loaded, as a subsequence of all entries. |
| `MainWindowViewModel.FilterIsSubsequence` | LevelDBViewer/ViewModels/MainWindowViewModel.cs:171-197 | Whatever the search text, the filtered view is a subsequence of the loaded entries. |
| `MainWindowViewModel.FilterIdempotent` | LevelDBViewer/ViewModels/MainWindowViewModel.cs:171-197 | Filtering twice with the same search text gives the same view as filtering once. |
| `MainWindowViewModel.ExampleSearch` | LevelDBViewer/ViewModels/MainWindowViewModel.cs:184-195 | Searching the two example entries (`LevelDbService.ExampleEntriesList`) for "1" shows only the first. |
| `MainWindowViewModel.MainWindowViewModel.constructor` | LevelDBViewer/ViewModels/MainWindowViewModel.cs:15-38 | Initial state: no database, empty search and lists, count 0, both flags false, empty last path, status "No database opened". |
| `MainWindowViewModel.MainWindowViewModel.SetSearchText` | LevelDBViewer/ViewModels/MainWindowViewModel.cs:17-18 | After any assignment to `SearchText` (the generated setter calls `OnSearchTextChanged` only when the value differs), `SearchText` is the new value and `FilteredEntries` is the filter of the loaded entries by it. `Valid()` is kept. |
| `MainWindowViewModel.MainWindowViewModel.OnSearchTextChanged` | LevelDBViewer/ViewModels/MainWindowViewModel.cs:40-43 | A change of the search text re-filters at once. There is no debounce. |
| `MainWindowViewModel.MainWindowViewModel.FilterEntries` | LevelDBViewer/ViewModels/MainWindowViewModel.cs:171-197 | Clears and refills `FilteredEntries` with the filter of `_allEntries` by `SearchText`. Nothing else changes. |
| `MainWindowViewModel.MainWindowViewModel.OpenDatabaseFromFolder` | LevelDBViewer/ViewModels/MainWindowViewModel.cs:77-109 | Sets the last path. On success: open, not corrupt, entries and count from the records, view filtered by the unchanged search text. On failure: service closed, shown as closed, corruption flag from the message, entries, view and count unchanged. |
| `MainWindowViewModel.MainWindowViewModel.OpenDatabase` | LevelDBViewer/ViewModels/MainWindowViewModel.cs:45-59 | Without a folder picker only the status changes. A cancelled pick changes nothing. A chosen folder is opened as above. |
| `MainWindowViewModel.MainWindowViewModel.OpenDatabaseFromFile` | LevelDBViewer/ViewModels/MainWindowViewModel.cs:61-75 | The same guards around the file picker delegate. |
| `MainWindowViewModel.MainWindowViewModel.CloseDatabase` | LevelDBViewer/ViewModels/MainWindowViewModel.cs:111-122 | Service closed. Both lists empty, count 0, search text empty, both flags false, last path kept. |
| `MainWindowViewModel.MainWindowViewModel.RepairDatabase` | LevelDBViewer/ViewModels/MainWindowViewModel.cs:124-169 | Empty last path: only the status changes. A failed repair or reopen: shown as closed, corruption flag from the message, entries kept. Success: the same state as a successful open of the last path. |

## Left out

- Async and threading. `Task.Run`, the awaits and any interleaving of commands are left out. Each command is one atomic step.
- The LevelDB engine (`DB`, `Options`, the iterator, native `Dispose`) is left out. Its answers are command parameters. An open answers with all records or an exception; an exception thrown part-way through the iteration is not modelled.
- `LevelDbService.RepairDatabase` is called by the view model but is not part of this model. The repair outcome is a parameter, and the repair is assumed to leave the service's handle untouched.
- Text is a sequence of Unicode scalar values, not of UTF-16 code units. A supplementary character is one element here and two in .NET. Lone surrogates cannot appear in a search text.
- `Encoding.Utf8GetString` follows the maximal-subpart replacement rule of the Unicode standard. That .NET's decoder does exactly the same is not established here.
- `TryDecodeUtf8`: the catch branch is not modelled, because the modelled decoder never throws. It would return the same placeholder.
- `Text.ToLower` folds only ASCII letters. The source's culture-sensitive `ToLower`, and `OrdinalIgnoreCase` in `IsCorruptionError`, also fold non-ASCII letters. Under some cultures `ToLower` also maps ASCII differently: under tr-TR, `"FILE".ToLower()` is `"fıle"`, so a search for "file" misses a key that the model matches.
- `SetSearchText`: a `null` search text (which `IsNullOrWhiteSpace` would treat as blank) is not modelled.
- Status messages are a tagged datatype, not the formatted strings.
- The folder and file pickers (`IStorageFolder`, `folder.Path.LocalPath`) are reduced to a path or its absence. So are the Avalonia view and property-change notifications other than `OnSearchTextChanged`.
- Entries are values. `_allEntries` and `FilteredEntries` are distinct collections, but they hold the same `LevelDbEntry` objects; that sharing of element objects is not modelled. The observable collections' change events are not modelled either.

## Behaviour worth knowing

- Invalid UTF-8 is not always shown as binary. FF FE decodes to two U+FFFD, which are printable, and those are shown (`InvalidUtf8ShownAsReplacementCharacters`).
- Text and placeholder are not exclusive: printable text can read exactly like a placeholder (`PlaceholderTextIsAmbiguous`).
- Corruption is recognised by "corruption" or "corrupted". The word "corrupt" alone does not match (`CorruptAloneNotRecognised`).
- The model runs each command as one atomic step. In the code, opening and repairing wait for the engine on `Task.Run` (MainWindowViewModel.cs:88-92, 137-140, 148-152). Meanwhile `LastDatabasePath` already holds the new path, `IsCorruptionDetected` is already false, and the status already reads "Opening database: …" or "Repairing database: …". Other commands, such as closing or editing the search text, can run in the meantime. A close that runs after the engine answers but before the entries are loaded still ends with `IsDatabaseOpen` true and entries loaded while the service holds no handle. `Valid()` is not established for such interleavings. There is no separate state variable for opening or repairing.
- A change of the search text re-filters at once. There is no debounce, and the hex texts are computed when the entries are loaded.
- A failed open keeps the previously loaded entries and count. So `TotalEntries` can be non-zero while the store is shown as closed. It always equals the number of loaded entries (`Valid()`).
- The file picker command opens the folder the picker returns. No directory is derived from a file path.

=== FILE: bitconverter.dfy ===
/** System.BitConverter.ToString(byte[]): "XX-XX-..." with upper-case hex digits. */
module BitConverter {
  import opened Encoding
  import Text

  /** The upper-case hex digit for `d`. */
  function HexDigit(d: nat): (c: char)
    requires d < 16
    ensures '0' <= c <= '9' || 'A' <= c <= 'F'
  {
    if d < 10 then Text.DigitChar(d) else (d - 10 + 'A' as int) as char
  }

  /** The two hex digits of one byte, high nibble first. */
  function ByteToHex(b: byte): (h: string)
    ensures |h| == 2
  {
    [HexDigit(b as int / 16), HexDigit(b as int % 16)]
  }

  /** BitConverter.ToString: the bytes' hex pairs joined by '-'; empty for no bytes. */
  function ToString(bytes: seq<byte>): string
  {
    if bytes == [] then ""
    else if |bytes| == 1 then ByteToHex(bytes[0])
    else ByteToHex(bytes[0]) + "-" + ToString(bytes[1..])
  }
}

=== FILE: encoding.dfy ===
/**
 * The part of System.Text.Encoding.UTF8 the viewer uses: GetString, which turns
 * raw bytes into text and never throws. Each maximal ill-formed subpart of the
 * input is replaced by one U+FFFD, as the Unicode standard recommends
 * (section 3.9, "U+FFFD Substitution of Maximal Subparts").
 *
 * Text is a sequence of Unicode scalar values (Dafny's `char`), not of UTF-16
 * code units: a supplementary character is one `char` here.
 */
module Encoding {

  newtype byte = x: int | 0 <= x < 256

  const ReplacementChar: char := '\U{FFFD}'

  /** Length of the well-formed sequence `lead` starts, or 0 if it cannot start one. */
  function SequenceLength(lead: byte): (n: nat)
    ensures n <= 4
    ensures lead < 0x80 <==> n == 1
  {
    if lead < 0x80 then 1
    else if 0xC2 <= lead <= 0xDF then 2
    else if 0xE0 <= lead <= 0xEF then 3
    else if 0xF0 <= lead <= 0xF4 then 4
    else 0
  }

  /** Whether `x` may stand at offset `k` (k >= 1) of a sequence started by `lead`. */
  predicate Continues(lead: byte, k: nat, x: byte)
  {
    if k == 1 && lead == 0xE0 then 0xA0 <= x <= 0xBF
    else if k == 1 && lead == 0xED then 0x80 <= x <= 0x9F
    else if k == 1 && lead == 0xF0 then 0x90 <= x <= 0xBF
    else if k == 1 && lead == 0xF4 then 0x80 <= x <= 0x8F
    else 0x80 <= x <= 0xBF
  }

  /**
   * How many bytes, from offset 0, form a prefix of a well-formed sequence of
   * length `len` (at most `len`): the lead byte plus the continuation bytes
   * that follow it before the first one out of range or the end of input.
   */
  function Matched(b: seq<byte>, k: nat, len: nat): (m: nat)
    requires 1 <= k <= |b| && k <= len
    ensures k <= m <= len && m <= |b|
    ensures forall j :: k <= j < m ==> Continues(b[0], j, b[j])
    ensures m < len && m < |b| ==> !Continues(b[0], m, b[m])
    decreases len - k
  {
    if k < len && k < |b| && Continues(b[0], k, b[k]) then Matched(b, k + 1, len) else k
  }

  /** The scalar value encoded by the complete, well-formed sequence at the start of `b`. */
  function ScalarOf(b: seq<byte>, len: nat): char
    requires 1 <= len <= |b| && len == SequenceLength(b[0])
    requires forall j :: 1 <= j < len ==> Continues(b[0], j, b[j])
  {
    if len == 1 then
      b[0] as int as char
    else if len == 2 then
      ((b[0] as int - 0xC0) * 0x40 + (b[1] as int - 0x80)) as char
    else if len == 3 then
      assert Continues(b[0], 1, b[1]) && Continues(b[0], 2, b[2]);
      var cp := (b[0] as int - 0xE0) * 0x1000 + (b[1] as int - 0x80) * 0x40 + (b[2] as int - 0x80);
      assert cp < 0xD800 || 0xE000 <= cp < 0x10000;
      cp as char
    else
      assert Continues(b[0], 1, b[1]) && Continues(b[0], 2, b[2]) && Continues(b[0], 3, b[3]);
      var cp := (b[0] as int - 0xF0) * 0x40000 + (b[1] as int - 0x80) * 0x1000
                + (b[2] as int - 0x80) * 0x40 + (b[3] as int - 0x80);
      assert 0x10000 <= cp < 0x110000;
      cp as char
  }

  /**
   * Decodes the first character of non-empty `b`: the character and the number
   * of bytes it took. An ill-formed prefix yields U+FFFD and consumes its
   * maximal subpart (at least one byte).
   */
  function DecodeFirst(b: seq<byte>): (r: (char, nat))
    requires |b| > 0
    ensures 1 <= r.1 <= |b|
    ensures b[0] < 0x80 ==> r == (b[0] as int as char, 1)
    ensures forall j :: 1 <= j < r.1 ==> b[j] >= 0x80
  {
    var len := SequenceLength(b[0]);
    if len == 0 then
      (ReplacementChar, 1)
    else
      var m := Matched(b, 1, len);
      if m == len then (ScalarOf(b, len), len) else (ReplacementChar, m)
  }

  /** Encoding.UTF8.GetString: total, one character per sequence or maximal subpart. */
  function Utf8GetString(b: seq<byte>): (s: string)
    ensures |s| <= |b|
    ensures s == [] <==> b == []
    decreases |b|
  {
    if b == [] then []
    else
      var (c, n) := DecodeFirst(b);
      [c] + Utf8GetString(b[n..])
  }

  /** Bytes below 0x80 decode one-for-one to the characters with the same code. */
  lemma {:induction false} AsciiDecodesVerbatim(b: seq<byte>)
    requires forall i :: 0 <= i < |b| ==> b[i] < 0x80
    ensures |Utf8GetString(b)| == |b|
    ensures forall i :: 0 <= i < |b| ==> Utf8GetString(b)[i] == b[i] as int as char
  {
    if b != [] {
      AsciiDecodesVerbatim(b[1..]);
      assert Utf8GetString(b) == [b[0] as int as char] + Utf8GetString(b[1..]);
    }
  }

  /**
   * A byte below 0x80 is never swallowed by a multi-byte sequence or a
   * replaced subpart: it always appears as its own character in the text.
   */
  lemma {:induction false} AsciiByteSurvives(b: seq<byte>, k: nat)
    requires k < |b| && b[k] < 0x80
    ensures exists j :: 0 <= j < |Utf8GetString(b)| && Utf8GetString(b)[j] == b[k] as int as char
    decreases |b|
  {
    var (c, n) := DecodeFirst(b);
    var s, rest := Utf8GetString(b), Utf8GetString(b[n..]);
    assert s == [c] + rest;
    if k == 0 {
      assert s[0] == b[k] as int as char;
    } else {
      assert k >= n;
      assert b[n..][k - n] == b[k];
      AsciiByteSurvives(b[n..], k - n);
      var j :| 0 <= j < |rest| && rest[j] == b[k] as int as char;
      assert s[j + 1] == rest[j];
    }
  }
}

=== FILE: leveldb_service.dfy ===
/**
 * LevelDbService: rendering of raw bytes as display text and hex, and the
 * service that owns the single store handle and reads every record from it.
 *
 * The LevelDB engine is foreign code: what it answers when asked to open a
 * path (an exception message, or the records its iterator will walk from the
 * first key to the last) is handed to OpenDatabase as a parameter.
 */
module LevelDbService {
  import opened Wrappers
  import opened Encoding
  import opened Text
  import BitConverter
  import opened Models

  // ---------------------------------------------------------------------
  // Display text

  /** A character that makes a string non-printable: a control character other than LF, CR or tab. */
  predicate Disallowed(c: char)
  {
    IsControl(c) && c != '\n' && c != '\r' && c != '\t'
  }

  /** IsPrintable: scans left to right and answers false at the first disallowed character. */
  function IsPrintable(str: string): bool
  {
    if str == [] then true
    else if Disallowed(str[0]) then false
    else IsPrintable(str[1..])
  }

  /** The early-return scan accepts exactly the strings without a disallowed character. */
  lemma {:induction false} IsPrintableMeaning(str: string)
    ensures IsPrintable(str) <==> forall i :: 0 <= i < |str| ==> !Disallowed(str[i])
  {
    if str != [] {
      IsPrintableMeaning(str[1..]);
      assert forall i :: 1 <= i < |str| ==> str[i] == str[1..][i - 1];
    }
  }

  /** The text shown instead of undisplayable bytes: "[Binary: N bytes]". */
  function BinaryPlaceholder(length: nat): (text: string)
    ensures IsPrintable(text)
    ensures forall i :: 0 <= i < |text| ==> 0x20 <= text[i] as int < 0x7F
    ensures |text| == 16 + |NatToString(length)|
  {
    var text := "[Binary: " + NatToString(length) + " bytes]";
    IsPrintableMeaning(text);
    text
  }

  /** The placeholder determines the byte length it was made for. */
  lemma BinaryPlaceholderDeterminesLength(n: nat, m: nat)
    requires BinaryPlaceholder(n) == BinaryPlaceholder(m)
    ensures n == m
  {
    var p, q := BinaryPlaceholder(n), BinaryPlaceholder(m);
    assert |NatToString(n)| == |NatToString(m)|;
    assert p[9..|p| - 7] == NatToString(n);
    assert q[9..|q| - 7] == NatToString(m);
    NatToStringInjective(n, m);
  }

  /**
   * TryDecodeUtf8: the UTF-8 decoding of the bytes when it is printable, the
   * binary placeholder for their length otherwise. Decoding never throws, so
   * the source's catch branch (which returns the same placeholder) is never taken.
   */
  function TryDecodeUtf8(bytes: seq<byte>): (text: string)
    ensures IsPrintable(text)
    ensures IsPrintable(Utf8GetString(bytes)) ==> text == Utf8GetString(bytes)
    ensures (exists i :: 0 <= i < |Utf8GetString(bytes)| && Disallowed(Utf8GetString(bytes)[i]))
            ==> text == BinaryPlaceholder(|bytes|)
    ensures text == [] <==> bytes == []
  {
    var str := Utf8GetString(bytes);
    IsPrintableMeaning(str);
    if IsPrintable(str) then str else BinaryPlaceholder(|bytes|)
  }

  /** Bytes that are all printable ASCII (or tab, LF, CR) are shown as the same characters. */
  lemma PrintableAsciiShownVerbatim(bytes: seq<byte>)
    requires forall i :: 0 <= i < |bytes| ==> bytes[i] < 0x80 && !Disallowed(bytes[i] as int as char)
    ensures |TryDecodeUtf8(bytes)| == |bytes|
    ensures forall i :: 0 <= i < |bytes| ==> TryDecodeUtf8(bytes)[i] == bytes[i] as int as char
  {
    AsciiDecodesVerbatim(bytes);
    IsPrintableMeaning(Utf8GetString(bytes));
  }

  /** One ASCII control byte other than tab, LF or CR anywhere makes the whole value binary. */
  lemma AsciiControlByteShowsPlaceholder(bytes: seq<byte>, k: nat)
    requires k < |bytes| && bytes[k] < 0x80 && Disallowed(bytes[k] as int as char)
    ensures TryDecodeUtf8(bytes) == BinaryPlaceholder(|bytes|)
  {
    AsciiByteSurvives(bytes, k);
  }

  /** A C1 control character (here U+0085, encoded C2 85) also makes the value binary. */
  lemma C1ControlShowsPlaceholder()
    ensures TryDecodeUtf8([0xC2, 0x85]) == BinaryPlaceholder(2)
  {
    var b: seq<byte> := [0xC2, 0x85];
    assert Matched(b, 1, 2) == 2;
    assert Utf8GetString(b) == [0x85 as char];
  }

  /** Ill-formed UTF-8 is not shown as binary: FF FE decodes to two U+FFFD, which are printable. */
  lemma InvalidUtf8ShownAsReplacementCharacters()
    ensures TryDecodeUtf8([0xFF, 0xFE]) == [ReplacementChar, ReplacementChar]
  {
    var b: seq<byte> := [0xFF, 0xFE];
    assert b[1..][1..] == [];
    assert Utf8GetString(b[1..]) == [ReplacementChar];
  }

  /**
   * Text and placeholder can coincide: bytes that spell, in ASCII, the
   * placeholder for their own length (as "[Binary: 18 bytes]" does for 18
   * bytes) are printable and are shown as themselves, which reads exactly
   * like binary data of that length.
   */
  lemma PlaceholderTextIsAmbiguous(bytes: seq<byte>)
    requires |BinaryPlaceholder(|bytes|)| == |bytes|
    requires forall i :: 0 <= i < |bytes| ==> bytes[i] as int == BinaryPlaceholder(|bytes|)[i] as int
    ensures IsPrintable(Utf8GetString(bytes))
    ensures TryDecodeUtf8(bytes) == BinaryPlaceholder(|bytes|)
  {
    var text := BinaryPlaceholder(|bytes|);
    AsciiDecodesVerbatim(bytes);
    assert Utf8GetString(bytes) == text;
  }

  // ---------------------------------------------------------------------
  // Hex rendering

  /** The hex column: BitConverter.ToString(bytes).Replace("-", " "). */
  function Hex(bytes: seq<byte>): (hex: string)
  {
    Replace(BitConverter.ToString(bytes), '-', ' ')
  }

  /** Hex of more than one byte is the first pair, a space, and the hex of the rest. */
  lemma HexUnfold(bytes: seq<byte>)
    requires |bytes| >= 1
    ensures |bytes| == 1 ==> Hex(bytes) == BitConverter.ByteToHex(bytes[0])
    ensures |bytes| >= 2 ==> Hex(bytes) == BitConverter.ByteToHex(bytes[0]) + " " + Hex(bytes[1..])
  {
    var pair := BitConverter.ByteToHex(bytes[0]);
    assert Replace(pair, '-', ' ') == pair;
    if |bytes| >= 2 {
      ReplaceConcat(pair + "-", BitConverter.ToString(bytes[1..]), '-', ' ');
      ReplaceConcat(pair, "-", '-', ' ');
    }
  }

  /** The hex column is empty for no bytes and 3n-1 characters long for n bytes. */
  lemma {:induction false} HexLength(bytes: seq<byte>)
    ensures |Hex(bytes)| == if bytes == [] then 0 else 3 * |bytes| - 1
  {
    if bytes != [] {
      HexUnfold(bytes);
      if |bytes| >= 2 {
        HexLength(bytes[1..]);
      }
    }
  }

  /** Byte i's two upper-case digits stand at positions 3i and 3i+1. */
  lemma {:induction false} HexPairAt(bytes: seq<byte>, i: nat)
    requires i < |bytes|
    ensures 3 * i + 2 <= |Hex(bytes)|
    ensures Hex(bytes)[3 * i..3 * i + 2] == BitConverter.ByteToHex(bytes[i])
  {
    HexUnfold(bytes);
    HexLength(bytes);
    if i > 0 {
      var tail := Hex(bytes[1..]);
      HexPairAt(bytes[1..], i - 1);
      assert Hex(bytes)[3 * i..3 * i + 2] == tail[3 * (i - 1)..3 * (i - 1) + 2];
    }
  }

  /** Consecutive pairs are separated by exactly one space, at position 3i+2. */
  lemma {:induction false} HexSpaceAt(bytes: seq<byte>, i: nat)
    requires i + 1 < |bytes|
    ensures 3 * i + 2 < |Hex(bytes)|
    ensures Hex(bytes)[3 * i + 2] == ' '
  {
    HexUnfold(bytes);
    HexLength(bytes);
    if i > 0 {
      HexSpaceAt(bytes[1..], i - 1);
      assert Hex(bytes)[3 * i + 2] == Hex(bytes[1..])[3 * (i - 1) + 2];
    }
  }

  /**
   * Shape of the hex column: empty for no bytes, otherwise 3n-1 characters,
   * the two upper-case digits of byte i at 3i and 3i+1, a single space at 3i+2.
   */
  lemma HexLayout(bytes: seq<byte>)
    ensures |Hex(bytes)| == if bytes == [] then 0 else 3 * |bytes| - 1
    ensures forall i :: 0 <= i < |bytes| ==> Hex(bytes)[3 * i..3 * i + 2] == BitConverter.ByteToHex(bytes[i])
    ensures forall i :: 0 <= i < |bytes| - 1 ==> Hex(bytes)[3 * i + 2] == ' '
  {
    HexLength(bytes);
    forall i | 0 <= i < |bytes|
      ensures Hex(bytes)[3 * i..3 * i + 2] == BitConverter.ByteToHex(bytes[i])
    {
      HexPairAt(bytes, i);
    }
    forall i | 0 <= i < |bytes| - 1
      ensures Hex(bytes)[3 * i + 2] == ' '
    {
      HexSpaceAt(bytes, i);
    }
  }

  /** The hex column holds only upper-case hex digits and spaces. */
  lemma HexAlphabet(bytes: seq<byte>)
    ensures forall j :: 0 <= j < |Hex(bytes)| ==>
      '0' <= Hex(bytes)[j] <= '9' || 'A' <= Hex(bytes)[j] <= 'F' || Hex(bytes)[j] == ' '
  {
    HexLayout(bytes);
    var h := Hex(bytes);
    forall j | 0 <= j < |h|
      ensures '0' <= h[j] <= '9' || 'A' <= h[j] <= 'F' || h[j] == ' '
    {
      var i := j / 3;
      assert h[3 * i..3 * i + 2] == BitConverter.ByteToHex(bytes[i]);
      if j % 3 == 0 {
        assert h[j] == h[3 * i..3 * i + 2][0];
      } else if j % 3 == 1 {
        assert h[j] == h[3 * i..3 * i + 2][1];
      }
    }
  }

  /** The value of one hex digit, either case. */
  function ParseHexDigit(c: char): Option<nat>
  {
    if '0' <= c <= '9' then Some(c as int - '0' as int)
    else if 'A' <= c <= 'F' then Some(c as int - 'A' as int + 10)
    else if 'a' <= c <= 'f' then Some(c as int - 'a' as int + 10)
    else None
  }

  /** A two-digit hex piece as a byte. */
  function ParseHexPair(piece: string): Option<byte>
  {
    if |piece| != 2 then None
    else match (ParseHexDigit(piece[0]), ParseHexDigit(piece[1]))
      case (Some(hi), Some(lo)) =>
        if hi < 16 && lo < 16 then Some((hi * 16 + lo) as byte) else None
      case _ => None
  }

  /** Every piece parsed as a byte, or None if one is not a hex pair. */
  function ParseHexPieces(pieces: seq<string>): Option<seq<byte>>
  {
    if pieces == [] then Some([])
    else match (ParseHexPair(pieces[0]), ParseHexPieces(pieces[1..]))
      case (Some(b), Some(rest)) => Some([b] + rest)
      case _ => None
  }

  /** Reading a hex column back: split on spaces, then parse each piece as one byte. */
  function ParseHex(hex: string): Option<seq<byte>>
  {
    ParseHexPieces(Split(hex, ' '))
  }

  /** Parsing a byte's hex pair gives the byte back. */
  lemma ParseByteToHex(b: byte)
    ensures ParseHexPair(BitConverter.ByteToHex(b)) == Some(b)
  {
    var pair := BitConverter.ByteToHex(b);
    assert ParseHexDigit(pair[0]) == Some(b as int / 16);
    assert ParseHexDigit(pair[1]) == Some(b as int % 16);
  }

  /** Splitting the hex column on spaces and parsing each pair gives back the bytes. */
  lemma {:induction false} HexRoundTrip(bytes: seq<byte>)
    requires bytes != []
    ensures ParseHex(Hex(bytes)) == Some(bytes)
    decreases |bytes|
  {
    var pair := BitConverter.ByteToHex(bytes[0]);
    ParseByteToHex(bytes[0]);
    assert forall i :: 0 <= i < |pair| ==> pair[i] != ' ';
    HexUnfold(bytes);
    if |bytes| == 1 {
      SplitWithoutSeparator(pair, ' ');
      assert Split(Hex(bytes), ' ') == [pair];
      assert [pair][1..] == [];
      assert ParseHexPieces([pair]) == Some([bytes[0]] + []);
      assert [bytes[0]] + [] == bytes;
      assert ParseHex(Hex(bytes)) == ParseHexPieces([pair]);
    } else {
      var tail := Hex(bytes[1..]);
      assert Hex(bytes) == pair + [' '] + tail;
      SplitFirstPiece(pair, ' ', tail);
      HexRoundTrip(bytes[1..]);
      assert ParseHexPieces([pair] + Split(tail, ' ')) == Some([bytes[0]] + bytes[1..]);
      assert [bytes[0]] + bytes[1..] == bytes;
    }
  }

  // ---------------------------------------------------------------------
  // The service

  /** One record as the store's iterator yields it. */
  datatype KeyValue = KeyValue(key: seq<byte>, value: seq<byte>)

  /** An open store: the path it was opened at and the records in iterator (key) order. */
  datatype Handle = Handle(path: string, records: seq<KeyValue>)

  /** What the engine answers to `new DB(options, path)`: a handle over these records, or an exception. */
  datatype OpenResponse = Opened(records: seq<KeyValue>) | OpenFailed(message: string)

  /** The entry built for one iterated pair. */
  function ToEntry(kv: KeyValue): LevelDbEntry
  {
    LevelDbEntry(TryDecodeUtf8(kv.key), TryDecodeUtf8(kv.value), Hex(kv.key), Hex(kv.value))
  }

  /** The entries GetAllEntries builds from these records: entry i is built from record i. */
  function EntriesOf(records: seq<KeyValue>): (entries: seq<LevelDbEntry>)
    ensures |entries| == |records|
  {
    seq(|records|, i requires 0 <= i < |records| => ToEntry(records[i]))
  }

  /** Extending a prefix by one element. */
  lemma PrefixAppend<T>(s: seq<T>, n: nat)
    requires n < |s|
    ensures s[..n + 1] == s[..n] + [s[n]]
  {
  }

  // ---------------------------------------------------------------------
  // Example: two records and the entries they are shown as

  /** Two records: key "a" with value "1", key "b" with the two bytes FF FE. */
  function ExampleRecords(): seq<KeyValue>
  {
    [KeyValue([0x61], [0x31]), KeyValue([0x62], [0xFF, 0xFE])]
  }

  /** The entries the example records are shown as. */
  function ExampleEntriesList(): seq<LevelDbEntry>
  {
    [LevelDbEntry("a", "1", "61", "31"),
     LevelDbEntry("b", [Encoding.ReplacementChar, Encoding.ReplacementChar], "62", "FF FE")]
  }

  /** The record ("a", "1") is shown as text, with hex "61" and "31". */
  lemma ExampleTextEntry()
    ensures ToEntry(ExampleRecords()[0]) == ExampleEntriesList()[0]
  {
    var kv := ExampleRecords()[0];
    assert TryDecodeUtf8(kv.key) == "a" by { PrintableAsciiShownVerbatim(kv.key); }
    assert TryDecodeUtf8(kv.value) == "1" by { PrintableAsciiShownVerbatim(kv.value); }
    assert Hex(kv.key) == "61" by { HexUnfold(kv.key); }
    assert Hex(kv.value) == "31" by { HexUnfold(kv.value); }
  }

  /** The record ("b", FF FE) shows its value as two U+FFFD, with hex "FF FE". */
  lemma ExampleInvalidUtf8Entry()
    ensures ToEntry(ExampleRecords()[1]) == ExampleEntriesList()[1]
  {
    var kv := ExampleRecords()[1];
    assert TryDecodeUtf8(kv.key) == "b" by { PrintableAsciiShownVerbatim(kv.key); }
    assert TryDecodeUtf8(kv.value) == [Encoding.ReplacementChar, Encoding.ReplacementChar] by {
      InvalidUtf8ShownAsReplacementCharacters();
    }
    assert Hex(kv.key) == "62" by { HexUnfold(kv.key); }
    assert Hex(kv.value) == "FF FE" by {
      HexUnfold(kv.value);
      HexUnfold(kv.value[1..]);
    }
  }

  /**
   * Loading the example records gives two entries; the value FF FE is shown
   * as two U+FFFD characters (not as a binary placeholder) with hex "FF FE".
   */
  lemma ExampleEntries()
    ensures EntriesOf(ExampleRecords()) == ExampleEntriesList()
  {
    ExampleTextEntry();
    ExampleInvalidUtf8Entry();
  }

  class LevelDbService {
    /** `_database`: the open handle, if any. */
    var database: Option<Handle>
    /** `_disposed` */
    var disposed: bool

    constructor ()
      ensures database == None && !disposed
    {
      database := None;
      disposed := false;
    }

    /** IsOpen: a handle is held. */
    predicate IsOpen()
      reads this
    {
      database.Some?
    }

    /**
     * Closes any handle, then opens `path` (CreateIfMissing = false). The
     * engine's answer is `response`; on an exception it is returned in
     * `failure` and no handle is held.
     */
    method OpenDatabase(path: string, response: OpenResponse) returns (failure: Option<string>)
      modifies this`database
      ensures IsOpen() <==> response.Opened?
      ensures response.Opened? ==> database == Some(Handle(path, response.records)) && failure == None
      ensures response.OpenFailed? ==> database == None && failure == Some(response.message)
    {
      Close();
      match response
      case Opened(records) =>
        database := Some(Handle(path, records));
        failure := None;
      case OpenFailed(message) =>
        failure := Some(message);
    }

    /**
     * Walks the iterator from the first record to the last and builds one
     * entry per record; no entries when no store is open.
     */
    method GetAllEntries() returns (entries: seq<LevelDbEntry>)
      ensures database == None ==> entries == []
      ensures database.Some? ==> entries == EntriesOf(database.value.records)
    {
      if database == None {
        return [];
      }
      var records := database.value.records;
      entries := [];
      var position := 0;  // iterator.SeekToFirst()
      while position < |records|  // iterator.IsValid()
        invariant 0 <= position <= |records|
        invariant entries == EntriesOf(records)[..position]
      {
        PrefixAppend(EntriesOf(records), position);
        entries := entries + [ToEntry(records[position])];  // iterator.Key(), iterator.Value()
        position := position + 1;  // iterator.Next()
      }
    }

    /** Releases the handle, if any; closing a closed service changes nothing. */
    method Close()
      modifies this`database
      ensures database == None && !IsOpen()
    {
      database := None;
    }

    /** Closes and marks the service disposed, the first time only. */
    method Dispose()
      modifies this
      ensures disposed
      ensures !old(disposed) ==> database == None && !IsOpen()
      ensures old(disposed) ==> database == old(database)
    {
      if !disposed {
        Close();
        disposed := true;
      }
    }
  }
}

=== FILE: main_window_view_model.dfy ===
/**
 * MainWindowViewModel: the commands behind the viewer's window (open, close,
 * repair and reopen, search) and the observable state they update.
 *
 * Each command is one atomic step; the engine's answers (to open and to
 * repair) are parameters, as are the folder chosen in the picker.
 */
module MainWindowViewModel {
  import opened Wrappers
  import opened Text
  import opened Models
  import opened LevelDbService

  // ---------------------------------------------------------------------
  // Corruption classification

  /** IsCorruptionError: the message mentions "Corruption" or "corrupted", ignoring case. */
  predicate IsCorruptionError(message: string)
  {
    ContainsIgnoreCase(message, "Corruption") || ContainsIgnoreCase(message, "corrupted")
  }

  /**
   * A message is a corruption error exactly when its lower-cased text has
   * "corruption" or "corrupted" at some position.
   */
  lemma IsCorruptionErrorMeaning(message: string)
    ensures IsCorruptionError(message) <==>
      exists i :: 0 <= i <= |message| &&
        ("corruption" <= ToLower(message)[i..] || "corrupted" <= ToLower(message)[i..])
  {
    assert ToLower("Corruption") == "corruption";
    assert ToLower("corrupted") == "corrupted";
    ContainsMeaning(ToLower(message), "corruption");
    ContainsMeaning(ToLower(message), "corrupted");
  }

  /** The classification does not depend on the case of the message. */
  lemma IsCorruptionErrorIgnoresCase(message: string)
    ensures IsCorruptionError(ToLower(message)) == IsCorruptionError(message)
  {
    ToLowerIdempotent(message);
  }

  /** A message holding "corruption" or "corrupted" at some index, in any case, is recognised. */
  lemma WordRecognised(message: string, i: nat, word: string)
    requires word == "corruption" || word == "corrupted"
    requires i + |word| <= |message|
    requires ToLower(message[i..i + |word|]) == word
    ensures IsCorruptionError(message)
  {
    IsCorruptionErrorMeaning(message);
    var lower := ToLower(message);
    forall j | 0 <= j < |word|
      ensures lower[i..][j] == word[j]
    {
      assert message[i..i + |word|][j] == message[i + j];
    }
    assert word <= lower[i..];
  }

  /** LevelDB's own corruption message is recognised. */
  lemma CorruptionMessageRecognised(message: string)
    requires message == "Corruption: bad block contents"
    ensures IsCorruptionError(message)
  {
    assert message[0..10] == "Corruption";
    WordRecognised(message, 0, "corruption");
  }

  /** "corrupted" is recognised in upper case too. */
  lemma UpperCaseCorruptedRecognised(message: string)
    requires message == "the file is CORRUPTED"
    ensures IsCorruptionError(message)
  {
    assert message[12..21] == "CORRUPTED";
    WordRecognised(message, 12, "corrupted");
  }

  /**
   * Both "corruption" and "corrupted" have a letter after "corrupt" ('i',
   * 'e'): a message with neither letter, in either case, is not classified
   * as corruption.
   */
  lemma WithoutIOrENotRecognised(message: string)
    requires forall i :: 0 <= i < |message| ==> ToLowerChar(message[i]) != 'i' && ToLowerChar(message[i]) != 'e'
    ensures !IsCorruptionError(message)
  {
    IsCorruptionErrorMeaning(message);
    MissingCharacterRulesOutContains(ToLower(message), "corruption", 7);
    MissingCharacterRulesOutContains(ToLower(message), "corrupted", 7);
  }

  /** A message that says only "corrupt" is not classified as corruption. */
  lemma CorruptAloneNotRecognised(message: string)
    requires message == "corrupt block"
    ensures !IsCorruptionError(message)
  {
    WithoutIOrENotRecognised(message);
  }

  // ---------------------------------------------------------------------
  // Search filter

  /** The Where predicate of FilterEntries: one of the four columns, lower-cased, contains the search text. */
  predicate Matches(entry: LevelDbEntry, searchLower: string)
  {
    || Contains(ToLower(entry.key), searchLower)
    || Contains(ToLower(entry.value), searchLower)
    || Contains(ToLower(entry.keyHex), searchLower)
    || Contains(ToLower(entry.valueHex), searchLower)
  }

  /** Enumerable.Where: the matching entries, in their original order. */
  function Where(entries: seq<LevelDbEntry>, searchLower: string): seq<LevelDbEntry>
  {
    if entries == [] then []
    else (if Matches(entries[0], searchLower) then [entries[0]] else []) + Where(entries[1..], searchLower)
  }

  /** What FilterEntries leaves in FilteredEntries for these entries and this search text. */
  function Filter(all: seq<LevelDbEntry>, searchText: string): seq<LevelDbEntry>
  {
    if IsNullOrWhiteSpace(searchText) then all else Where(all, ToLower(searchText))
  }

  /** `xs` is `ys` with some elements left out, the rest in the same order. */
  predicate IsSubsequence<T(==)>(xs: seq<T>, ys: seq<T>)
    decreases |ys|
  {
    if xs == [] then true
    else if ys == [] then false
    else (xs[0] == ys[0] && IsSubsequence(xs[1..], ys[1..])) || IsSubsequence(xs, ys[1..])
  }

  /** Where over a list with one more entry at the end: the old result, plus that entry if it matches. */
  lemma {:induction false} WhereAppend(entries: seq<LevelDbEntry>, entry: LevelDbEntry, searchLower: string)
    ensures Where(entries + [entry], searchLower)
         == Where(entries, searchLower) + (if Matches(entry, searchLower) then [entry] else [])
  {
    if entries != [] {
      WhereAppend(entries[1..], entry, searchLower);
      assert (entries + [entry])[1..] == entries[1..] + [entry];
    }
  }

  /** Soundness: every entry Where keeps matches the search text. */
  lemma {:induction false} WhereSound(entries: seq<LevelDbEntry>, searchLower: string)
    ensures forall e :: e in Where(entries, searchLower) ==> Matches(e, searchLower)
  {
    if entries != [] {
      WhereSound(entries[1..], searchLower);
    }
  }

  /** Completeness: every matching entry is kept. */
  lemma {:induction false} WhereComplete(entries: seq<LevelDbEntry>, searchLower: string)
    ensures forall i :: 0 <= i < |entries| && Matches(entries[i], searchLower) ==> entries[i] in Where(entries, searchLower)
  {
    if entries != [] {
      WhereComplete(entries[1..], searchLower);
      forall i | 1 <= i < |entries| && Matches(entries[i], searchLower)
        ensures entries[i] in Where(entries, searchLower)
      {
        assert entries[1..][i - 1] == entries[i];
      }
    }
  }

  /** Where keeps every copy of a matching entry and no copy of any other. */
  lemma {:induction false} WhereMultiplicity(entries: seq<LevelDbEntry>, searchLower: string)
    ensures forall e :: multiset(Where(entries, searchLower))[e]
                     == if Matches(e, searchLower) then multiset(entries)[e] else 0
  {
    if entries != [] {
      WhereMultiplicity(entries[1..], searchLower);
      assert entries == [entries[0]] + entries[1..];
      assert multiset(entries) == multiset([entries[0]]) + multiset(entries[1..]);
    }
  }

  /** Where keeps entries in their original order, leaving some out. */
  lemma {:induction false} WhereIsSubsequence(entries: seq<LevelDbEntry>, searchLower: string)
    ensures IsSubsequence(Where(entries, searchLower), entries)
  {
    if entries != [] {
      var rest := Where(entries[1..], searchLower);
      WhereIsSubsequence(entries[1..], searchLower);
      if Matches(entries[0], searchLower) {
        assert Where(entries, searchLower)[1..] == rest;
      } else {
        assert Where(entries, searchLower) == rest;
      }
    }
  }

  /** Filtering what Where kept, with the same search text, keeps all of it. */
  lemma {:induction false} WhereIdempotent(entries: seq<LevelDbEntry>, searchLower: string)
    ensures Where(Where(entries, searchLower), searchLower) == Where(entries, searchLower)
  {
    if entries != [] {
      var rest := Where(entries[1..], searchLower);
      WhereIdempotent(entries[1..], searchLower);
      if Matches(entries[0], searchLower) {
        assert Where(entries, searchLower) == [entries[0]] + rest;
        assert ([entries[0]] + rest)[1..] == rest;
      } else {
        assert Where(entries, searchLower) == rest;
      }
    }
  }

  /** A blank (empty or all white-space) search shows every entry, in order. */
  lemma FilterBlankShowsAll(all: seq<LevelDbEntry>, searchText: string)
    requires IsNullOrWhiteSpace(searchText)
    ensures Filter(all, searchText) == all
  {
  }

  /**
   * A non-blank search shows exactly the entries, in original order, whose
   * lower-cased Key, Value, KeyHex or ValueHex contains the lower-cased text:
   * each matching entry as often as it is loaded, no other entry at all.
   */
  lemma FilterSoundAndComplete(all: seq<LevelDbEntry>, searchText: string)
    requires !IsNullOrWhiteSpace(searchText)
    ensures forall e :: e in Filter(all, searchText) ==> Matches(e, ToLower(searchText))
    ensures forall i :: 0 <= i < |all| && Matches(all[i], ToLower(searchText)) ==> all[i] in Filter(all, searchText)
    ensures forall e :: multiset(Filter(all, searchText))[e]
                     == if Matches(e, ToLower(searchText)) then multiset(all)[e] else 0
    ensures IsSubsequence(Filter(all, searchText), all)
  {
    WhereSound(all, ToLower(searchText));
    WhereComplete(all, ToLower(searchText));
    WhereMultiplicity(all, ToLower(searchText));
    WhereIsSubsequence(all, ToLower(searchText));
  }

  /** Whatever the search text, the filtered view is a subsequence of all entries. */
  lemma FilterIsSubsequence(all: seq<LevelDbEntry>, searchText: string)
    ensures IsSubsequence(Filter(all, searchText), all)
  {
    if IsNullOrWhiteSpace(searchText) {
      SubsequenceReflexive(all);
    } else {
      WhereIsSubsequence(all, ToLower(searchText));
    }
  }

  /** Every sequence is a subsequence of itself. */
  lemma {:induction false} SubsequenceReflexive<T>(xs: seq<T>)
    ensures IsSubsequence(xs, xs)
  {
    if xs != [] {
      SubsequenceReflexive(xs[1..]);
    }
  }

  /** Filtering twice with the same search text gives the same view as filtering once. */
  lemma FilterIdempotent(all: seq<LevelDbEntry>, searchText: string)
    ensures Filter(Filter(all, searchText), searchText) == Filter(all, searchText)
  {
    if !IsNullOrWhiteSpace(searchText) {
      WhereIdempotent(all, ToLower(searchText));
    }
  }

  /** Searching the example entries for "1" shows only the first one. */
  lemma ExampleSearch()
    ensures Filter(ExampleEntriesList(), "1") == [ExampleEntriesList()[0]]
  {
    var entries := ExampleEntriesList();
    assert ToLower("1") == "1";
    assert Matches(entries[0], "1") by {
      ContainsChar(ToLower(entries[0].value), '1');
      assert ToLower(entries[0].value)[0] == '1';
    }
    assert !Matches(entries[1], "1") by {
      ContainsChar(ToLower(entries[1].key), '1');
      ContainsChar(ToLower(entries[1].value), '1');
      ContainsChar(ToLower(entries[1].keyHex), '1');
      ContainsChar(ToLower(entries[1].valueHex), '1');
    }
    assert entries[1..][1..] == [];
  }

  // ---------------------------------------------------------------------
  // The view model

  /** StatusMessage, by the situation it reports rather than its exact wording. */
  datatype Status =
    | NoDatabaseOpened
    | FolderPickerNotInitialized
    | FilePickerNotInitialized
    | Opening(path: string)
    | DatabaseOpened(path: string, count: int)
    | OpenError(message: string)
    | DatabaseClosed
    | NoPathForRepair
    | Repairing(path: string)
    | RepairedReopening
    | RepairedAndReopened(path: string, count: int)
    | RepairFailed(message: string)

  /** What a picker delegate gave: no delegate was set, the user cancelled, or a folder. */
  datatype PickerResult = PickerNotSet | PickerCancelled | Picked(path: string)

  class MainWindowViewModel {
    /** `_levelDbService` */
    const service: LevelDbService

    var searchText: string
    var statusMessage: Status
    var isDatabaseOpen: bool
    var totalEntries: int
    var isCorruptionDetected: bool
    var lastDatabasePath: string
    /** `_allEntries` */
    var allEntries: seq<LevelDbEntry>
    var filteredEntries: seq<LevelDbEntry>

    /**
     * What every command preserves: the count is the number of loaded
     * entries, the filtered view is the filter of them by the current search
     * text, corruption is only flagged while the store is not shown as open,
     * and while it is shown as open the service holds a handle whose records
     * are exactly the loaded entries.
     */
    ghost predicate Valid()
      reads this, service
    {
      && totalEntries == |allEntries|
      && filteredEntries == Filter(allEntries, searchText)
      && (isCorruptionDetected ==> !isDatabaseOpen)
      && (isDatabaseOpen ==> service.database.Some? && allEntries == EntriesOf(service.database.value.records))
    }

    /** A successful load of `records` from `path`, the search text kept. */
    twostate predicate LoadedFrom(path: string, records: seq<KeyValue>)
      reads this, service
    {
      && service.database == Some(Handle(path, records))
      && isDatabaseOpen && !isCorruptionDetected
      && allEntries == EntriesOf(records) && totalEntries == |records|
      && filteredEntries == Filter(allEntries, old(searchText))
    }

    /** A failed open or repair: shown as closed, corruption flagged by the message, entries kept. */
    twostate predicate FailedWith(message: string)
      reads this
    {
      && !isDatabaseOpen && isCorruptionDetected == IsCorruptionError(message)
      && allEntries == old(allEntries) && filteredEntries == old(filteredEntries)
      && totalEntries == old(totalEntries)
    }

    /** Nothing but the status message may have changed. */
    twostate predicate OnlyStatusChanged()
      reads this, service
    {
      && service.database == old(service.database)
      && isDatabaseOpen == old(isDatabaseOpen) && isCorruptionDetected == old(isCorruptionDetected)
      && allEntries == old(allEntries) && filteredEntries == old(filteredEntries)
      && totalEntries == old(totalEntries)
    }

    /** The effect of OpenDatabaseFromFolderAsync(path) when the engine answers `response`. */
    twostate predicate OpenedFolder(path: string, response: OpenResponse)
      reads this, service
    {
      && lastDatabasePath == path
      && (response.Opened? ==>
            LoadedFrom(path, response.records) && statusMessage == DatabaseOpened(path, |response.records|))
      && (response.OpenFailed? ==>
            service.database == None && FailedWith(response.message) && statusMessage == OpenError(response.message))
    }

    constructor ()
      ensures Valid() && fresh(service)
      ensures service.database == None && !service.disposed
      ensures searchText == "" && statusMessage == NoDatabaseOpened
      ensures !isDatabaseOpen && totalEntries == 0 && !isCorruptionDetected && lastDatabasePath == ""
      ensures allEntries == [] && filteredEntries == []
    {
      service := new LevelDbService();
      searchText := "";
      statusMessage := NoDatabaseOpened;
      isDatabaseOpen := false;
      totalEntries := 0;
      isCorruptionDetected := false;
      lastDatabasePath := "";
      allEntries := [];
      filteredEntries := [];
    }

    /**
     * The SearchText setter: a different value is stored and OnSearchTextChanged
     * re-filters; the same value changes nothing.
     */
    method SetSearchText(value: string)
      requires Valid()
      modifies this`searchText, this`filteredEntries
      ensures Valid()
      ensures searchText == value
      ensures filteredEntries == Filter(allEntries, value)
    {
      if searchText != value {
        searchText := value;
        OnSearchTextChanged(value);
      }
    }

    /** OnSearchTextChanged: re-filters at once (there is no debounce). */
    method OnSearchTextChanged(value: string)
      modifies this`filteredEntries
      ensures filteredEntries == Filter(allEntries, searchText)
    {
      FilterEntries();
    }

    /**
     * FilterEntries: clears FilteredEntries, then adds every entry (blank
     * search) or every matching entry, in order.
     */
    method FilterEntries()
      modifies this`filteredEntries
      ensures filteredEntries == Filter(allEntries, searchText)
    {
      filteredEntries := [];
      if IsNullOrWhiteSpace(searchText) {
        var i := 0;
        while i < |allEntries|
          invariant 0 <= i <= |allEntries|
          invariant filteredEntries == allEntries[..i]
        {
          filteredEntries := filteredEntries + [allEntries[i]];
          i := i + 1;
        }
        assert allEntries[..|allEntries|] == allEntries;
      } else {
        var searchLower := ToLower(searchText);
        var i := 0;
        while i < |allEntries|
          invariant 0 <= i <= |allEntries|
          invariant filteredEntries == Where(allEntries[..i], searchLower)
        {
          WhereAppend(allEntries[..i], allEntries[i], searchLower);
          assert allEntries[..i + 1] == allEntries[..i] + [allEntries[i]];
          if Matches(allEntries[i], searchLower) {
            filteredEntries := filteredEntries + [allEntries[i]];
          }
          i := i + 1;
        }
        assert allEntries[..|allEntries|] == allEntries;
      }
    }

    /**
     * OpenDatabaseFromFolderAsync: records the path, clears the corruption
     * flag, opens through the service and loads every entry; on an exception
     * the store is shown as closed, the corruption flag follows the message,
     * and the previously loaded entries stay.
     */
    method OpenDatabaseFromFolder(path: string, response: OpenResponse)
      requires Valid()
      modifies service`database, this`lastDatabasePath, this`isCorruptionDetected, this`statusMessage
      modifies this`allEntries, this`isDatabaseOpen, this`totalEntries, this`filteredEntries
      ensures Valid()
      ensures OpenedFolder(path, response)
    {
      lastDatabasePath := path;
      isCorruptionDetected := false;
      statusMessage := Opening(path);
      var failure := service.OpenDatabase(path, response);
      if failure == None {
        var entries := service.GetAllEntries();
        allEntries := entries;
        isDatabaseOpen := true;
        totalEntries := |allEntries|;
        statusMessage := DatabaseOpened(path, totalEntries);
        FilterEntries();
      } else {
        isDatabaseOpen := false;
        isCorruptionDetected := IsCorruptionError(failure.value);
        statusMessage := OpenError(failure.value);
      }
    }

    /** OpenDatabaseAsync: asks the folder picker, then opens the chosen folder. */
    method OpenDatabase(picker: PickerResult, response: OpenResponse)
      requires Valid()
      modifies service`database, this`lastDatabasePath, this`isCorruptionDetected, this`statusMessage
      modifies this`allEntries, this`isDatabaseOpen, this`totalEntries, this`filteredEntries
      ensures Valid()
      ensures picker.PickerNotSet? ==>
        OnlyStatusChanged() && lastDatabasePath == old(lastDatabasePath) && statusMessage == FolderPickerNotInitialized
      ensures picker.PickerCancelled? ==>
        OnlyStatusChanged() && lastDatabasePath == old(lastDatabasePath) && statusMessage == old(statusMessage)
      ensures picker.Picked? ==> OpenedFolder(picker.path, response)
    {
      match picker
      case PickerNotSet =>
        statusMessage := FolderPickerNotInitialized;
      case PickerCancelled =>
      case Picked(path) =>
        OpenDatabaseFromFolder(path, response);
    }

    /** OpenDatabaseFromFileAsync: the same, through the file picker delegate. */
    method OpenDatabaseFromFile(picker: PickerResult, response: OpenResponse)
      requires Valid()
      modifies service`database, this`lastDatabasePath, this`isCorruptionDetected, this`statusMessage
      modifies this`allEntries, this`isDatabaseOpen, this`totalEntries, this`filteredEntries
      ensures Valid()
      ensures picker.PickerNotSet? ==>
        OnlyStatusChanged() && lastDatabasePath == old(lastDatabasePath) && statusMessage == FilePickerNotInitialized
      ensures picker.PickerCancelled? ==>
        OnlyStatusChanged() && lastDatabasePath == old(lastDatabasePath) && statusMessage == old(statusMessage)
      ensures picker.Picked? ==> OpenedFolder(picker.path, response)
    {
      match picker
      case PickerNotSet =>
        statusMessage := FilePickerNotInitialized;
      case PickerCancelled =>
      case Picked(path) =>
        OpenDatabaseFromFolder(path, response);
    }

    /**
     * CloseDatabase: closes the service, empties both lists, resets the count,
     * the search text and both flags; the last path is kept for repair.
     */
    method CloseDatabase()
      requires Valid()
      modifies service`database, this`allEntries, this`filteredEntries, this`isDatabaseOpen
      modifies this`totalEntries, this`searchText, this`isCorruptionDetected, this`statusMessage
      ensures Valid()
      ensures service.database == None
      ensures allEntries == [] && filteredEntries == [] && totalEntries == 0 && searchText == ""
      ensures !isDatabaseOpen && !isCorruptionDetected && statusMessage == DatabaseClosed
    {
      service.Close();
      allEntries := [];
      filteredEntries := [];
      isDatabaseOpen := false;
      totalEntries := 0;
      SetSearchText("");
      isCorruptionDetected := false;
      statusMessage := DatabaseClosed;
    }

    /**
     * RepairDatabaseAsync: without a last path only the status changes.
     * Otherwise the engine repairs the store (`repairFailure` is its
     * exception, if any; the handle is not touched) and the store is reopened
     * at the last path (`reopen` is the engine's answer). Success loads the
     * entries as an open does; a failure of either step is reported as a
     * repair failure, with the corruption flag following its message.
     */
    method RepairDatabase(repairFailure: Option<string>, reopen: OpenResponse)
      requires Valid()
      modifies service`database, this`isCorruptionDetected, this`statusMessage
      modifies this`allEntries, this`isDatabaseOpen, this`totalEntries, this`filteredEntries
      ensures Valid()
      ensures old(lastDatabasePath) == "" ==> OnlyStatusChanged() && statusMessage == NoPathForRepair
      ensures old(lastDatabasePath) != "" && repairFailure.Some? ==>
        && service.database == old(service.database)
        && FailedWith(repairFailure.value) && statusMessage == RepairFailed(repairFailure.value)
      ensures old(lastDatabasePath) != "" && repairFailure.None? && reopen.OpenFailed? ==>
        && service.database == None
        && FailedWith(reopen.message) && statusMessage == RepairFailed(reopen.message)
      ensures old(lastDatabasePath) != "" && repairFailure.None? && reopen.Opened? ==>
        && LoadedFrom(lastDatabasePath, reopen.records)
        && statusMessage == RepairedAndReopened(lastDatabasePath, |reopen.records|)
    {
      if lastDatabasePath == "" {
        statusMessage := NoPathForRepair;
        return;
      }
      statusMessage := Repairing(lastDatabasePath);
      if repairFailure.Some? {
        statusMessage := RepairFailed(repairFailure.value);
        isDatabaseOpen := false;
        isCorruptionDetected := IsCorruptionError(repairFailure.value);
        return;
      }
      statusMessage := RepairedReopening;
      isCorruptionDetected := false;
      var failure := service.OpenDatabase(lastDatabasePath, reopen);
      if failure == None {
        var entries := service.GetAllEntries();
        allEntries := entries;
        isDatabaseOpen := true;
        totalEntries := |allEntries|;
        statusMessage := RepairedAndReopened(lastDatabasePath, totalEntries);
        FilterEntries();
      } else {
        statusMessage := RepairFailed(failure.value);
        isDatabaseOpen := false;
        isCorruptionDetected := IsCorruptionError(failure.value);
      }
    }
  }

  /**
   * A session: open a store, fail to reopen it with a corruption error (the
   * loaded entries stay), repair and reopen it, search, then close it.
   */
  method SessionScenario(records: seq<KeyValue>)
  {
    var vm := new MainWindowViewModel();
    vm.OpenDatabaseFromFolder("/data/db", Opened(records));
    assert vm.isDatabaseOpen && vm.totalEntries == |records| && vm.filteredEntries == EntriesOf(records);

    var message := "Corruption: bad block contents";
    CorruptionMessageRecognised(message);
    vm.OpenDatabaseFromFolder("/data/db", OpenFailed(message));
    assert !vm.isDatabaseOpen && vm.isCorruptionDetected && vm.totalEntries == |records|;
    assert vm.service.database == None;

    vm.RepairDatabase(None, Opened(records));
    assert vm.isDatabaseOpen && !vm.isCorruptionDetected && vm.allEntries == EntriesOf(records);

    vm.SetSearchText("1");
    assert vm.filteredEntries == Filter(EntriesOf(records), "1");

    vm.CloseDatabase();
    assert vm.totalEntries == 0 && vm.filteredEntries == [] && !vm.isCorruptionDetected;
    assert vm.lastDatabasePath == "/data/db";
  }
}

=== FILE: models.dfy ===
/** The record shown for one key/value pair of the store. */
module Models {

  /** Decoded key and value (or their binary placeholders) and their hex renderings. */
  datatype LevelDbEntry = LevelDbEntry(key: string, value: string, keyHex: string, valueHex: string)
}

=== FILE: text.dfy ===
/**
 * The parts of System.Char and System.String the viewer calls: character
 * classes, lower-casing, ordinal and case-insensitive substring search,
 * Replace of one character by another, and decimal rendering of a count.
 * Split and ParseNat are not calls the viewer makes: they only serve to state
 * that the hex column and the placeholder's count can be read back.
 */
module Text {

  /** char.IsControl: Unicode category Cc, that is U+0000..U+001F and U+007F..U+009F. */
  predicate IsControl(c: char)
  {
    c as int <= 0x1F || 0x7F <= c as int <= 0x9F
  }

  /** char.IsWhiteSpace: the Unicode White_Space characters. */
  predicate IsWhiteSpace(c: char)
  {
    || 0x09 <= c as int <= 0x0D
    || c == ' '
    || c as int == 0x85
    || c as int == 0xA0
    || c as int == 0x1680
    || 0x2000 <= c as int <= 0x200A
    || c as int == 0x2028
    || c as int == 0x2029
    || c as int == 0x202F
    || c as int == 0x205F
    || c as int == 0x3000
  }

  /** string.IsNullOrWhiteSpace for a non-null string: empty, or nothing but white space. */
  predicate IsNullOrWhiteSpace(s: string)
  {
    forall i :: 0 <= i < |s| ==> IsWhiteSpace(s[i])
  }

  /** Lower-casing of one character; only the ASCII letters A..Z are folded. */
  function ToLowerChar(c: char): (l: char)
    ensures 'A' <= c <= 'Z' ==> l as int == c as int + 32
    ensures !('A' <= c <= 'Z') ==> l == c
  {
    if 'A' <= c <= 'Z' then (c as int + 32) as char else c
  }

  /** string.ToLower, with ASCII case folding. */
  function ToLower(s: string): (l: string)
    ensures |l| == |s|
    ensures forall i :: 0 <= i < |s| ==> l[i] == ToLowerChar(s[i])
  {
    seq(|s|, i requires 0 <= i < |s| => ToLowerChar(s[i]))
  }

  /** Lower-casing text that is already lower case changes nothing. */
  lemma ToLowerIdempotent(s: string)
    ensures ToLower(ToLower(s)) == ToLower(s)
  {
    forall i | 0 <= i < |s|
      ensures ToLower(ToLower(s))[i] == ToLower(s)[i]
    {
      assert ToLowerChar(ToLowerChar(s[i])) == ToLowerChar(s[i]);
    }
  }

  /**
   * string.Contains (ordinal): `p` occurs in `s` as a contiguous run,
   * checked position by position from the left.
   */
  function Contains(s: string, p: string): bool
    decreases |s|
  {
    if p <= s then true
    else if s == [] then false
    else Contains(s[1..], p)
  }

  /** The left-to-right search finds the pattern exactly when it occurs at some position. */
  lemma {:induction false} ContainsMeaning(s: string, p: string)
    ensures Contains(s, p) <==> exists i :: 0 <= i <= |s| && p <= s[i..]
    decreases |s|
  {
    if p <= s {
      assert p <= s[0..];
    } else if s != [] {
      ContainsMeaning(s[1..], p);
      OccurrencesInTail(s, p);
    }
  }

  /** The occurrences in `s[1..]` are the occurrences in `s` that start after position 0. */
  lemma OccurrencesInTail(s: string, p: string)
    requires s != []
    ensures (exists i :: 0 <= i <= |s[1..]| && p <= s[1..][i..])
        <==> (exists i :: 1 <= i <= |s| && p <= s[i..])
  {
    forall i | 0 <= i <= |s[1..]| ensures s[1..][i..] == s[i + 1..] { }
    if exists i :: 1 <= i <= |s| && p <= s[i..] {
      var i :| 1 <= i <= |s| && p <= s[i..];
      assert p <= s[1..][i - 1..];
    }
  }

  /** A one-character string occurs exactly where that character does. */
  lemma ContainsChar(s: string, c: char)
    ensures Contains(s, [c]) <==> exists i :: 0 <= i < |s| && s[i] == c
  {
    ContainsMeaning(s, [c]);
    if Contains(s, [c]) {
      var i :| 0 <= i <= |s| && [c] <= s[i..];
      assert s[i..][0] == c;
    }
    if exists i :: 0 <= i < |s| && s[i] == c {
      var i :| 0 <= i < |s| && s[i] == c;
      assert [c] <= s[i..];
    }
  }

  /** A pattern cannot occur in text that lacks one of its characters. */
  lemma MissingCharacterRulesOutContains(s: string, p: string, k: nat)
    requires k < |p|
    requires forall i :: 0 <= i < |s| ==> s[i] != p[k]
    ensures !Contains(s, p)
  {
    ContainsMeaning(s, p);
    forall i | 0 <= i <= |s| ensures !(p <= s[i..]) {
      if i + k < |s| {
        assert s[i..][k] == s[i + k];
      }
    }
  }

  /** Contains with StringComparison.OrdinalIgnoreCase, ASCII letters folded. */
  predicate ContainsIgnoreCase(s: string, p: string)
  {
    Contains(ToLower(s), ToLower(p))
  }

  /** A case-insensitive search does not depend on the case of the text searched. */
  lemma ContainsIgnoreCaseOfLower(s: string, p: string)
    ensures ContainsIgnoreCase(ToLower(s), p) == ContainsIgnoreCase(s, p)
  {
    ToLowerIdempotent(s);
  }

  /**
   * string.Replace(string, string) applied to one-character strings, as in
   * Replace("-", " "): every `from` becomes `to`, everything else stays.
   */
  function Replace(s: string, from: char, to: char): string
  {
    seq(|s|, i requires 0 <= i < |s| => if s[i] == from then to else s[i])
  }

  /** Replace keeps the length and every other character, and leaves no `from` behind. */
  lemma ReplaceMeaning(s: string, from: char, to: char)
    requires from != to
    ensures |Replace(s, from, to)| == |s|
    ensures forall i :: 0 <= i < |s| ==> Replace(s, from, to)[i] != from
    ensures forall i :: 0 <= i < |s| && s[i] != from ==> Replace(s, from, to)[i] == s[i]
    ensures forall i :: 0 <= i < |s| && s[i] == from ==> Replace(s, from, to)[i] == to
  {
  }

  /** Replace works piecewise over a concatenation. */
  lemma ReplaceConcat(a: string, b: string, from: char, to: char)
    ensures Replace(a + b, from, to) == Replace(a, from, to) + Replace(b, from, to)
  {
  }

  /**
   * string.Split(char): the pieces between separators; always at least one
   * piece. Used only to state that the hex column reads back.
   */
  function Split(s: string, sep: char): (parts: seq<string>)
    ensures |parts| >= 1
  {
    if s == [] then [[]]
    else if s[0] == sep then [[]] + Split(s[1..], sep)
    else
      var rest := Split(s[1..], sep);
      [[s[0]] + rest[0]] + rest[1..]
  }

  /** Text free of the separator splits into itself. */
  lemma {:induction false} SplitWithoutSeparator(x: string, sep: char)
    requires forall i :: 0 <= i < |x| ==> x[i] != sep
    ensures Split(x, sep) == [x]
  {
    if x != [] {
      SplitWithoutSeparator(x[1..], sep);
      assert [x[0]] + x[1..] == x;
    }
  }

  /** A separator-free piece followed by a separator splits off as the first piece. */
  lemma {:induction false} SplitFirstPiece(x: string, sep: char, rest: string)
    requires forall i :: 0 <= i < |x| ==> x[i] != sep
    ensures Split(x + [sep] + rest, sep) == [x] + Split(rest, sep)
  {
    if x == [] {
      assert x + [sep] + rest == [sep] + rest;
      assert ([sep] + rest)[1..] == rest;
    } else {
      SplitFirstPiece(x[1..], sep, rest);
      assert (x + [sep] + rest)[1..] == x[1..] + [sep] + rest;
      assert [x[0]] + x[1..] == x;
    }
  }

  /** The decimal digit `d` as a character. */
  function DigitChar(d: nat): (c: char)
    requires d < 10
    ensures '0' <= c <= '9' && c as int - '0' as int == d
  {
    (d + '0' as int) as char
  }

  /** int.ToString() for a count: decimal digits, most significant first, no sign or separators. */
  function NatToString(n: nat): (s: string)
    ensures |s| >= 1
    ensures forall i :: 0 <= i < |s| ==> '0' <= s[i] <= '9'
    decreases n
  {
    if n < 10 then [DigitChar(n)] else NatToString(n / 10) + [DigitChar(n % 10)]
  }

  /** The value of a string of decimal digits; used only to state that a count reads back. */
  function ParseNat(s: string): nat
    requires forall i :: 0 <= i < |s| ==> '0' <= s[i] <= '9'
  {
    if s == [] then 0 else ParseNat(s[..|s| - 1]) * 10 + (s[|s| - 1] as int - '0' as int)
  }

  /** Reading back a rendered count gives the count. */
  lemma {:induction false} ParseNatToString(n: nat)
    ensures ParseNat(NatToString(n)) == n
    decreases n
  {
    var s := NatToString(n);
    if n >= 10 {
      ParseNatToString(n / 10);
      assert s[..|s| - 1] == NatToString(n / 10);
    }
  }

  /** Distinct counts render differently. */
  lemma NatToStringInjective(n: nat, m: nat)
    requires NatToString(n) == NatToString(m)
    ensures n == m
  {
    ParseNatToString(n);
    ParseNatToString(m);
  }
}

=== FILE: wrappers.dfy ===
/** An optional value (a C# reference that may be null), shared by the other modules. */
module Wrappers {

  /** A value that may be absent (a C# reference that may be null). */
  datatype Option<+T> = None | Some(value: T)
}
